=== FILE: README.md ===
# Controller Auto Scaling Group sizing in kube-aws

kube-aws sizes the controller Auto Scaling Group of a cluster from four
optional settings of `cluster.yaml`:
- the legacy desired count (`controllerCount` at the top level, or `controller.count`);
- `controller.autoScalingGroup.minSize`;
- `controller.autoScalingGroup.maxSize`;
- `controller.autoScalingGroup.rollingUpdateMinInstancesInService`.

The result is a sizing triple (minimum, maximum, in-service floor) or a
validation error. The behaviour is pinned by the table of checks in
`core/controlplane/config/config_cluster_size_test.go`. Each check writes a
sizing document in two shapes, the deprecated one and the current one. It
loads each document and compares the three reported values, or the error
message, with the expected ones.

The model has five modules:

- `ControllerSizing` (`sizing.dfy`) holds the resolver as a pure function,
  `Resolve`, from the raw optional inputs to `Result<ResolvedSizing, SizingError>`.
  - It has four error kinds: out of range, `count` mixed with the group
    settings, an ordering violation, and a defensive post-derivation check.
    Each maps to its stable message substring.
  - The production resolver is not part of this model. `Resolve` is
    reconstructed from the recorded checks, and every rule the checks leave
    open is stated as an assumption in its doc comment.
  - Every success satisfies `0 <= min <= max` and `0 <= floor < max`.
- `ControllerDocuments` (`documents.dfy`) holds the two document shapes as
  datatypes, with a normaliser from each to the raw record.
  - Each shape has its lines, and a reader for the sizing keys in their
    places that stands in for the YAML decoder.
  - It proves that each shape reads back as its normaliser says, so both
    shapes resolve alike.
- `Entries` (`entries.dfy`) holds the `indent key:` and `indent key: integer`
  lines, their rendering, and a line-by-line reader proved to invert the
  rendering.
- `Decimal` (`decimal.dfy`) holds the `%d` formatting of an integer and its
  inverse.
- `ClusterSizeTest` (`cluster_size_test.dfy`) holds `buildASGConfig` and
  `checkControllerASG` as methods that append to a string, as the Go code
  does. They are proved against the rendered documents.
  - It also holds the verdict of a check (`Passes`) and one lemma per row of
    the table. Each row lemma states the resolution, and that the check
    passes on both shapes.
  - The two branches of `checkControllerASG` that build the document are the
    methods `DeprecatedConfig` and `CurrentConfig`. `ControllerConfig`
    chooses between them on `useDeprecatedKey`.

Rule order of `Resolve`:
1. `count` together with any group setting is a mutual-exclusion error.
2. A negative value is out of range.
3. Defaulting: the main count is `count` or 1, the bounds default to the
   main count, and the floor defaults to one below the maximum.
4. Ordering: a minimum needs a maximum, the minimum is at most the maximum,
   and an explicit floor is below the maximum.
5. The defensive check that the floor is not negative.

The defensive check is meant never to fire, but it can: with
`count: 0` alone, or with `minSize: 0, maxSize: 0`, the default floor is
-1. `ControllerSizing.ResolveInconsistentExactly` characterises these inputs.
No recorded check uses them.

## Model

| member | source | states |
|---|---|---|
| ControllerSizing.Resolve | core/controlplane/config/config_cluster_size_test.go:13-81 | every successful resolution satisfies 0 <= min <= max and 0 <= floor < max |
| ControllerSizing.ResolveAllAbsent | core/controlplane/config/config_cluster_size_test.go:13-15 | with nothing configured the group has one controller and a floor of 0 |
| ControllerSizing.ResolveCountOnly | core/controlplane/config/config_cluster_size_test.go:17-20 | a count c >= 1 alone gives min = max = c and floor c - 1 |
| ControllerSizing.ResolveNegativeCount | core/controlplane/config/config_cluster_size_test.go:22-25 | any negative count alone is out of range |
| ControllerSizing.ResolveMinWithoutMax | core/controlplane/config/config_cluster_size_test.go:27-31 | a non-negative minimum without a maximum is an ordering error, whatever its value (a negative one is out of range first) |
| ControllerSizing.ResolveMaxOnly | core/controlplane/config/config_cluster_size_test.go:33-37 | a maximum m >= 1 alone keeps the minimum at the default count 1 and gives floor m - 1 |
| ControllerSizing.ResolveExplicit | core/controlplane/config/config_cluster_size_test.go:39-43 | valid explicit bounds and a floor below the maximum are reported verbatim; an absent floor is one below the maximum |
| ControllerSizing.ResolveNegativeBound | core/controlplane/config/config_cluster_size_test.go:45-55 | a negative minimum or maximum, with or without the other bound, is out of range, before any ordering check |
| ControllerSizing.ResolveCountExcludesBounds | core/controlplane/config/config_cluster_size_test.go:57-74 | count together with minSize or maxSize is a mutual-exclusion error for all values |
| ControllerSizing.ResolveZeroMaxOnly | core/controlplane/config/config_cluster_size_test.go:11 | a zero maximum alone is an ordering error, since the minimum defaults to 1 |
| ControllerSizing.Message | core/controlplane/config/config_cluster_size_test.go:9-11 | each error kind's message is its stable substring and never empty; `ClusterSizeTest.ErrorSubstringIdentifiesKind` proves each substring is found only in its own kind's message |
| ControllerDocuments.FromDeprecated | core/controlplane/config/config_cluster_size_test.go:105-113 | the deprecated shape normalises to its top-level count and its group settings, unchanged |
| ControllerDocuments.FromCurrent | core/controlplane/config/config_cluster_size_test.go:114-125 | the current shape normalises to `controller.count` and its group settings, unchanged |
| Decimal.IntToString | core/controlplane/config/config_cluster_size_test.go:107 | the `%d` text is non-empty, has no newline, space or colon, and starts with a minus sign exactly for negative values |
| ClusterSizeTest.Line | core/controlplane/config/config_cluster_size_test.go:161-167 | a `Sprintf` line is written exactly when its value is given |
| ClusterSizeTest.Contains | core/controlplane/config/config_cluster_size_test.go:129 | `strings.Contains`: a contained substring is no longer than the text, and the empty substring is always contained |
| ClusterSizeTest.Load | core/controlplane/config/config_cluster_size_test.go:127-153 | a loaded sizing satisfies the sizing invariant, and a rejection carries an error kind's message or the unreadable-document one |
| ClusterSizeTest.Passes | core/controlplane/config/config_cluster_size_test.go:128-153 | a passing check expects an error exactly when loading is rejected, and a passing load reports exactly the expected triple |
| ClusterSizeTest.ControllerAsgPasses | core/controlplane/config/config_cluster_size_test.go:101-155 | one run of a check, in either shape, passes exactly when its expectation holds for the resolution of its inputs |
| ClusterSizeTest.ControllerAsgsPass | core/controlplane/config/config_cluster_size_test.go:91-99 | a check passes on both shapes exactly when its expectation holds for the resolution of its inputs |
| ControllerSizing.ResolveMinAboveMax | core/controlplane/config/config_cluster_size_test.go:11 | an explicit minimum above the explicit maximum is an ordering error |
| ControllerSizing.ResolveKeepsGivenValues | core/controlplane/config/config_cluster_size_test.go:13-81 | a success reports every given value unchanged, a count fixes both bounds, an absent bound is the main count (`count` or 1) and an absent floor is one below the maximum |
| ControllerSizing.ResolveSuccessInputs | core/controlplane/config/config_cluster_size_test.go:9-11 | a success had no conflict, no negative value, a maximum wherever it had a minimum, and ordered explicit bounds |
| ControllerSizing.ResolveValidInputsSucceed | core/controlplane/config/config_cluster_size_test.go:13-81 | conversely, an input with no conflict, no negative value, a maximum wherever it has a minimum, ordered defaulted bounds and a floor below the maximum succeeds |
| ControllerSizing.ResolveInconsistentExactly | core/controlplane/config/config_cluster_size_test.go:17-20 | the defensive error happens exactly for `count: 0` alone or `minSize: 0, maxSize: 0`, with no floor given |
| ControllerDocuments.NormalisersAreBijective | core/controlplane/config/config_cluster_size_test.go:91-99 | each raw input has exactly one deprecated and exactly one current document |
| ControllerDocuments.RunGroup | core/controlplane/config/config_cluster_size_test.go:158-173 | reading the group block sets exactly minSize, maxSize and the floor, and leaves the count alone |
| ControllerDocuments.ReadDeprecated | core/controlplane/config/config_cluster_size_test.go:105-113 | the deprecated document reads back as its normalised raw input |
| ControllerDocuments.ReadCurrent | core/controlplane/config/config_cluster_size_test.go:114-125 | the current document reads back as its normalised raw input |
| ControllerDocuments.ShapesResolveAlike | core/controlplane/config/config_cluster_size_test.go:91-99 | both shapes built from the same inputs read as the same raw input |
| ControllerDocuments.DeprecatedHasNoEmptyMapping | core/controlplane/config/config_cluster_size_test.go:110-113 | in the deprecated shape no `controller` or `autoScalingGroup` key is left without lines under it |
| ControllerDocuments.CurrentHasNoEmptyMapping | core/controlplane/config/config_cluster_size_test.go:121-124 | in the current shape no `controller` or `autoScalingGroup` key is left without lines under it |
| Decimal.ParseIntOfIntToString | core/controlplane/config/config_cluster_size_test.go:107 | reading back the `%d` text of any integer, negative ones included, gives the integer |
| Decimal.IntToStringInjective | core/controlplane/config/config_cluster_size_test.go:161-167 | two different integers never format to the same text |
| Entries.ParseEntryLine | core/controlplane/config/config_cluster_size_test.go:161-167 | a well-formed line reads back as the indentation, key and value it was written from |
| Entries.ReadEntriesOfRender | core/controlplane/config/config_cluster_size_test.go:127 | a rendered document reads back as its lines, in order |
| ClusterSizeTest.LineRenders | core/controlplane/config/config_cluster_size_test.go:161-167 | each `Sprintf` line, when present, is the rendered entry of its key at its indentation |
| ClusterSizeTest.GroupText | core/controlplane/config/config_cluster_size_test.go:158-173 | the group lines come in the order minSize, maxSize, floor; the header is written only over a non-empty body |
| ClusterSizeTest.DeprecatedTextParts | core/controlplane/config/config_cluster_size_test.go:105-113 | the deprecated document is the top-level count line, then `controller:` over the group block when there is one |
| ClusterSizeTest.CurrentTextParts | core/controlplane/config/config_cluster_size_test.go:114-125 | the current document is `controller:` over the count line and the group block, when either is present |
| ClusterSizeTest.DocumentTextEmpty | core/controlplane/config/config_cluster_size_test.go:101-125 | either shape is empty exactly when nothing is configured |
| ClusterSizeTest.BuildAsgConfig | core/controlplane/config/config_cluster_size_test.go:158-173 | the built block is the rendered group entries, and it is empty exactly when no group setting is given |
| ClusterSizeTest.DeprecatedConfig | core/controlplane/config/config_cluster_size_test.go:105-113 | the configuration is the test prefix followed by the deprecated document, and is only the prefix when nothing is configured |
| ClusterSizeTest.CurrentConfig | core/controlplane/config/config_cluster_size_test.go:114-125 | the configuration is the test prefix followed by the current document, and is only the prefix when nothing is configured |
| ClusterSizeTest.ControllerConfig | core/controlplane/config/config_cluster_size_test.go:101-125 | the configuration is the test prefix followed by the document in the chosen shape |
| ClusterSizeTest.LoadDocument | core/controlplane/config/config_cluster_size_test.go:127 | loading either shape gives the outcome of resolving the inputs it was built from |
| ClusterSizeTest.ShapesPassAlike | core/controlplane/config/config_cluster_size_test.go:91-99 | a check passes on the deprecated shape exactly when it passes on the current one |
| ClusterSizeTest.ErrorSubstringIdentifiesKind | core/controlplane/config/config_cluster_size_test.go:9-11 | each expected substring occurs in its own kind's message and in no other, nor in the unreadable-document message |
| ClusterSizeTest.PassesPinsResolution | core/controlplane/config/config_cluster_size_test.go:127-155 | a check with no expected error passes exactly on the expected triple; one with an expected error passes exactly on that error kind |
| ClusterSizeTest.ControllerConfigVerdict | core/controlplane/config/config_cluster_size_test.go:127-155 | behind the test's base configuration, the document `ControllerConfig` builds loads to the resolution of the check's inputs, and the check's verdict on it is `ControllerAsgPasses` |
| ClusterSizeTest.PassesOnBothShapes | core/controlplane/config/config_cluster_size_test.go:91-155 | a check whose expectation holds for the resolution of its inputs passes on both shapes |
| ClusterSizeTest.AsgsAllDefaults | core/controlplane/config/config_cluster_size_test.go:13-15 | no settings resolve to (1, 1, 0), and the check passes on both shapes |
| ClusterSizeTest.AsgsDefaultToMainCount | core/controlplane/config/config_cluster_size_test.go:17-20 | count 6 resolves to (6, 6, 5), and the check passes on both shapes |
| ClusterSizeTest.AsgsInvalidMainCount | core/controlplane/config/config_cluster_size_test.go:22-25 | count -1 is out of range, and the message contains "must be zero or greater" on both shapes |
| ClusterSizeTest.AsgsOnlyMinConfigured | core/controlplane/config/config_cluster_size_test.go:27-31 | minSize 4 alone is an ordering error, and the message contains "must be less than or equal to" on both shapes |
| ClusterSizeTest.AsgsOnlyMaxConfigured | core/controlplane/config/config_cluster_size_test.go:33-37 | maxSize 3 alone resolves to (1, 3, 2), and the check passes on both shapes |
| ClusterSizeTest.AsgsMinMaxConfigured | core/controlplane/config/config_cluster_size_test.go:39-43 | minSize 2 with maxSize 5 resolves to (2, 5, 4), and the check passes on both shapes |
| ClusterSizeTest.AsgsInvalidMin | core/controlplane/config/config_cluster_size_test.go:45-49 | minSize -1 with maxSize 5 is out of range on both shapes |
| ClusterSizeTest.AsgsInvalidMax | core/controlplane/config/config_cluster_size_test.go:51-55 | minSize 1 with maxSize -1 is out of range, not an ordering error, on both shapes |
| ClusterSizeTest.AsgsMinConfiguredWithMainCount | core/controlplane/config/config_cluster_size_test.go:57-61 | count 2 with minSize 4 is a mutual-exclusion error on both shapes |
| ClusterSizeTest.AsgsMaxConfiguredWithMainCount | core/controlplane/config/config_cluster_size_test.go:63-67 | count 2 with maxSize 4 is a mutual-exclusion error on both shapes |
| ClusterSizeTest.AsgsMinMaxConfiguredWithMainCount | core/controlplane/config/config_cluster_size_test.go:69-74 | count 2 with minSize 3 and maxSize 4 is a mutual-exclusion error on both shapes |
| ClusterSizeTest.AsgsMinInServiceConfigured | core/controlplane/config/config_cluster_size_test.go:76-81 | minSize 5, maxSize 10 and floor 7 resolve to (5, 10, 7), and the check passes on both shapes |

## Left out

- The YAML decoder behind `ClusterFromBytes` is not part of this model. A line reader stands in for it (`Entries.ReadEntries`, then `ControllerDocuments.ReadSizing`). It accepts only `indent key:` and `indent key: integer` lines, and only the sizing keys in their places.
- `testConfig` and `minimalConfigYaml` are the opaque `testConfig` parameter of the building methods. The Go check loads the whole text; the model loads only the document appended after it (`ClusterSizeTest.ControllerConfigVerdict`), which assumes that `testConfig` carries no `controller`, `controllerCount` or `autoScalingGroup` key of its own.
- The production resolver behind `cluster.Config()`, `MinControllerCount()`, `MaxControllerCount()` and `ControllerRollingUpdateMinInstancesInService()` is not part of this model. `ControllerSizing.Resolve` reconstructs it from the recorded checks.
- ControllerSizing.Resolve: the inputs no recorded check pins are resolved by stated assumptions, not by known behaviour:
  - `count` with only a floor is a mutual-exclusion error;
  - `count` with a negative bound is a mutual-exclusion error, not an out-of-range one, since exclusion is checked before sign;
  - an explicit minimum above an explicit maximum is an ordering error (only the substring of that error is recorded);
  - a zero maximum alone is an ordering error, being below the default minimum 1;
  - a negative floor is out of range;
  - a floor of at least the maximum is an ordering error;
  - a minimum of 0 or 1 given alone is an ordering error, as a larger one is.
- The full error messages, with their field names and values, are not part of this model. Each error kind carries only the stable substring the checks look for. The defensive kind carries a message of its own, and no check expects it.
- The failure of `cluster.Config()` after a successful decode is not modelled, because this model loads in one step.
- The reporting through `testing.T` (`Errorf`, `FailNow`, and the texts of the reports) is not modelled. A check is the predicate `ClusterSizeTest.Passes`.
- Only `fmt.Sprintf` with one `%d` at the end of the format is modelled. Go's `int` is 64 bits wide and the model's integers are unbounded. The recorded values are far from the limit.
- Cloud-side limits on group sizes, and anything concurrent, are outside the sizing rules.

=== FILE: cluster_size_test.dfy ===
/** The controller sizing checks: the documents each check builds, in both
    shapes, the verdict a check reaches on what loading the document gives,
    and the recorded expectations one lemma per check. */
module ClusterSizeTest {
  import opened Wrappers
  import Decimal
  import opened Entries
  import opened ControllerSizing
  import opened ControllerDocuments

  // Building the documents

  /** What `fmt.Sprintf` writes for the format `prefix + "%d\n"` when the
      value is present; nothing when it is absent.

      Throughout this module a format of an indented line is written as its
      indentation followed by its key, `"    " + "minSize: "` for the Go
      literal `"    minSize: "`: the two strings are equal, and the split
      shows the depth the line is written at. */
  function Line(prefix: string, v: Option<int>): (r: string)
    ensures r == "" <==> v.None?
  {
    if v.Some? then prefix + Decimal.IntToString(v.value) + "\n" else ""
  }

  /** Stated on the pieces so that the document below, whose pieces are long
      expressions, is regrouped in one step. */
  lemma AppendAssociative(a: string, b: string, c: string)
    ensures (a + b) + c == a + (b + c)
  {
  }

  /** A format line is the rendered entry of its key at its indentation. */
  lemma LineRenders(prefix: string, indentText: string, keyText: string, indent: nat, key: string, v: Option<int>)
    requires prefix == indentText + keyText && indentText == Spaces(indent) && keyText == key + ": "
    ensures Line(prefix, v) == Render(Optional(indent, key, v))
  {
    if v.Some? {
      var e := Entry(indent, key, v);
      var digits := Decimal.IntToString(v.value);
      assert Optional(indent, key, v) == [e] && [e][1..] == [];
      assert EntryLine(e) == (Spaces(indent) + key) + ":" + (" " + digits);
      calc {
        (Spaces(indent) + key) + ":" + (" " + digits);
        (Spaces(indent) + key) + (":" + (" " + digits));
        { assert ":" + " " == ": "; }
        (Spaces(indent) + key) + (": " + digits);
        prefix + digits;
      }
    }
  }

  lemma EntryTextWithoutValue(indent: nat, key: string)
    ensures EntryText(Entry(indent, key, None)) == Spaces(indent) + (key + ":\n")
  {
    var e := Entry(indent, key, None);
    assert ValueText(e.value) == "";
    assert EntryLine(e) == Spaces(indent) + key + ":";
    assert (Spaces(indent) + key) + ":" + "\n" == (Spaces(indent) + key) + (":" + "\n");
    assert Spaces(indent) + key + ":\n" == Spaces(indent) + (key + ":\n");
  }

  lemma HeaderRenders(indentText: string, keyText: string, indent: nat, key: string, body: seq<Entry>)
    requires indentText == Spaces(indent) && keyText == key + ":\n"
    ensures Render([Entry(indent, key, None)] + body) == indentText + keyText + Render(body)
  {
    var es := [Entry(indent, key, None)] + body;
    assert es[0] == Entry(indent, key, None) && es[1..] == body;
    EntryTextWithoutValue(indent, key);
  }

  lemma GroupText(g: AutoScalingGroup)
    ensures Render(GroupBody(g))
         == Line("    " + "minSize: ", g.minSize)
          + Line("    " + "maxSize: ", g.maxSize)
          + Line("    " + "rollingUpdateMinInstancesInService: ", g.rollingUpdateMinInstancesInService)
    ensures Render(GroupBody(g)) == "" <==> IsEmpty(g)
    ensures Render(GroupEntries(g))
         == if IsEmpty(g) then "" else "  " + "autoScalingGroup:\n" + Render(GroupBody(g))
  {
    var mins := Optional(4, "minSize", g.minSize);
    var maxs := Optional(4, "maxSize", g.maxSize);
    var floors := Optional(4, "rollingUpdateMinInstancesInService", g.rollingUpdateMinInstancesInService);
    LineRenders("    " + "minSize: ", "    ", "minSize: ", 4, "minSize", g.minSize);
    LineRenders("    " + "maxSize: ", "    ", "maxSize: ", 4, "maxSize", g.maxSize);
    LineRenders("    " + "rollingUpdateMinInstancesInService: ", "    ", "rollingUpdateMinInstancesInService: ", 4, "rollingUpdateMinInstancesInService",
                g.rollingUpdateMinInstancesInService);
    RenderAppend(mins, maxs);
    RenderAppend(mins + maxs, floors);
    RenderEmpty(GroupBody(g));
    assert GroupBody(g) == [] <==> IsEmpty(g);
    HeaderRenders("  ", "autoScalingGroup:\n", 2, "autoScalingGroup", GroupBody(g));
  }

  lemma ControllerRenders(body: seq<Entry>)
    ensures Render(ControllerEntries(body)) == if body == [] then "" else "controller:\n" + Render(body)
  {
    if body != [] {
      HeaderRenders("", "controller:\n", 0, "controller", body);
      assert "" + "controller:\n" == "controller:\n";
    }
  }

  lemma GroupEntriesEmpty(g: AutoScalingGroup)
    ensures GroupEntries(g) == [] <==> IsEmpty(g)
  {
    if !IsEmpty(g) {
      assert |GroupBody(g)| > 0;
    }
  }

  lemma DeprecatedTextParts(count: Option<int>, g: AutoScalingGroup)
    ensures DeprecatedText(DeprecatedDocument(count, g))
         == Line("controllerCount: ", count)
          + if IsEmpty(g) then "" else "controller:\n" + Render(GroupEntries(g))
  {
    LineRenders("controllerCount: ", "", "controllerCount: ", 0, "controllerCount", count);
    GroupEntriesEmpty(g);
    ControllerRenders(GroupEntries(g));
    RenderAppend(Optional(0, "controllerCount", count), ControllerEntries(GroupEntries(g)));
  }

  lemma CurrentTextParts(count: Option<int>, g: AutoScalingGroup)
    ensures CurrentText(CurrentDocument(count, g))
         == if count.None? && IsEmpty(g) then ""
            else "controller:\n" + (Line("  " + "count: ", count) + Render(GroupEntries(g)))
  {
    var body := Optional(2, "count", count) + GroupEntries(g);
    LineRenders("  " + "count: ", "  ", "count: ", 2, "count", count);
    GroupEntriesEmpty(g);
    RenderAppend(Optional(2, "count", count), GroupEntries(g));
    assert body == [] <==> count.None? && IsEmpty(g);
    ControllerRenders(body);
  }

  /** The text of a sizing document in the chosen shape. */
  function DocumentText(useDeprecatedKey: bool, count: Option<int>, g: AutoScalingGroup): string {
    if useDeprecatedKey then DeprecatedText(DeprecatedDocument(count, g)) else CurrentText(CurrentDocument(count, g))
  }

  lemma DocumentTextEmpty(useDeprecatedKey: bool, count: Option<int>, g: AutoScalingGroup)
    ensures DocumentText(useDeprecatedKey, count, g) == "" <==> count.None? && IsEmpty(g)
  {
    GroupEntriesEmpty(g);
    RenderEmpty(DeprecatedEntries(DeprecatedDocument(count, g)));
    RenderEmpty(CurrentEntries(CurrentDocument(count, g)));
  }

  /** The deprecated document: the top-level count line, then `controller:`
      over the group block when there is one. */
  lemma DeprecatedAssembled(testConfig: string, withCount: string, config: string, count: Option<int>,
                            g: AutoScalingGroup, asgConfig: string)
    requires asgConfig == Render(GroupEntries(g)) && (asgConfig == "" <==> IsEmpty(g))
    requires withCount == testConfig + Line("controllerCount: ", count)
    requires config == if asgConfig == "" then withCount else withCount + ("controller:\n" + asgConfig)
    ensures config == testConfig + DocumentText(true, count, g)
    ensures config == testConfig <==> count.None? && IsEmpty(g)
  {
    DeprecatedTextParts(count, g);
    AppendAssociative(testConfig, Line("controllerCount: ", count),
                      if IsEmpty(g) then "" else "controller:\n" + asgConfig);
    DocumentTextEmpty(true, count, g);
    assert |testConfig + DocumentText(true, count, g)| == |testConfig| + |DocumentText(true, count, g)|;
  }

  /** The current document: `controller:` over the count line and the group
      block, when there is either. */
  lemma CurrentAssembled(testConfig: string, config: string, count: Option<int>, g: AutoScalingGroup,
                         concatConfig: string)
    requires concatConfig == Line("  " + "count: ", count) + Render(GroupEntries(g))
    requires config == testConfig + if concatConfig == "" then "" else "controller:\n" + concatConfig
    ensures config == testConfig + DocumentText(false, count, g)
    ensures config == testConfig <==> count.None? && IsEmpty(g)
  {
    CurrentTextParts(count, g);
    GroupText(g);
    DocumentTextEmpty(false, count, g);
    assert |testConfig + DocumentText(false, count, g)| == |testConfig| + |DocumentText(false, count, g)|;
  }

  /** The `autoScalingGroup` block for the given settings, built line by line. */
  method BuildAsgConfig(configuredMin: Option<int>, configuredMax: Option<int>, configuredMinInstances: Option<int>)
    returns (r: string)
    ensures r == Render(GroupEntries(AutoScalingGroup(configuredMin, configuredMax, configuredMinInstances)))
    ensures r == "" <==> configuredMin.None? && configuredMax.None? && configuredMinInstances.None?
  {
    var g := AutoScalingGroup(configuredMin, configuredMax, configuredMinInstances);
    var asg := "";
    if configuredMin.Some? {
      asg := asg + ("    " + "minSize: " + Decimal.IntToString(configuredMin.value) + "\n");
    }
    assert asg == Line("    " + "minSize: ", configuredMin);
    if configuredMax.Some? {
      asg := asg + ("    " + "maxSize: " + Decimal.IntToString(configuredMax.value) + "\n");
    }
    assert asg == Line("    " + "minSize: ", configuredMin) + Line("    " + "maxSize: ", configuredMax);
    if configuredMinInstances.Some? {
      asg := asg + ("    " + "rollingUpdateMinInstancesInService: "
                    + Decimal.IntToString(configuredMinInstances.value) + "\n");
    }
    GroupText(g);
    if asg != "" {
      return "  " + "autoScalingGroup:\n" + asg;
    }
    return "";
  }

  /** The deprecated branch of a check: the count under the top-level
      `controllerCount` key, the group block under `controller`. */
  method DeprecatedConfig(testConfig: string, configuredCount: Option<int>, configuredMin: Option<int>,
                          configuredMax: Option<int>, configuredMinInstances: Option<int>)
    returns (config: string)
    ensures config == testConfig + DocumentText(true, configuredCount,
      AutoScalingGroup(configuredMin, configuredMax, configuredMinInstances))
    ensures config == testConfig <==>
      configuredCount.None? && configuredMin.None? && configuredMax.None? && configuredMinInstances.None?
  {
    config := testConfig;
    if configuredCount.Some? {
      config := config + ("controllerCount: " + Decimal.IntToString(configuredCount.value) + "\n");
    }
    ghost var withCount := config;
    assert withCount == testConfig + Line("controllerCount: ", configuredCount);
    var asgConfig := BuildAsgConfig(configuredMin, configuredMax, configuredMinInstances);
    if asgConfig != "" {
      // an empty `controller` would make the YAML decoder zero the whole controller settings
      config := config + ("controller:\n" + asgConfig);
    }
    DeprecatedAssembled(testConfig, withCount, config, configuredCount,
                        AutoScalingGroup(configuredMin, configuredMax, configuredMinInstances), asgConfig);
  }

  /** The current branch of a check: the count and the group block, both
      under `controller`. */
  method CurrentConfig(testConfig: string, configuredCount: Option<int>, configuredMin: Option<int>,
                       configuredMax: Option<int>, configuredMinInstances: Option<int>)
    returns (config: string)
    ensures config == testConfig + DocumentText(false, configuredCount,
      AutoScalingGroup(configuredMin, configuredMax, configuredMinInstances))
    ensures config == testConfig <==>
      configuredCount.None? && configuredMin.None? && configuredMax.None? && configuredMinInstances.None?
  {
    config := testConfig;
    var countConfig := "";
    if configuredCount.Some? {
      countConfig := "  " + "count: " + Decimal.IntToString(configuredCount.value) + "\n";
    }
    assert countConfig == Line("  " + "count: ", configuredCount);
    var asgConfig := BuildAsgConfig(configuredMin, configuredMax, configuredMinInstances);
    var concatConfig := countConfig + asgConfig;
    if concatConfig != "" {
      // an empty `controller` would make the YAML decoder zero the whole controller settings
      config := config + ("controller:\n" + concatConfig);
    }
    CurrentAssembled(testConfig, config, configuredCount,
                     AutoScalingGroup(configuredMin, configuredMax, configuredMinInstances), concatConfig);
  }

  /** The sizing document of one check, in the deprecated or in the current
      shape, appended to `testConfig`. */
  method ControllerConfig(testConfig: string, configuredCount: Option<int>, configuredMin: Option<int>,
                          configuredMax: Option<int>, configuredMinInstances: Option<int>, useDeprecatedKey: bool)
    returns (config: string)
    ensures config == testConfig + DocumentText(useDeprecatedKey, configuredCount,
      AutoScalingGroup(configuredMin, configuredMax, configuredMinInstances))
    ensures config == testConfig <==>
      configuredCount.None? && configuredMin.None? && configuredMax.None? && configuredMinInstances.None?
  {
    if useDeprecatedKey {
      config := DeprecatedConfig(testConfig, configuredCount, configuredMin, configuredMax, configuredMinInstances);
    } else {
      config := CurrentConfig(testConfig, configuredCount, configuredMin, configuredMax, configuredMinInstances);
    }
  }

  // What a check concludes

  /** `strings.Contains`. */
  predicate OccursAt(s: string, sub: string, i: int) {
    0 <= i && i + |sub| <= |s| && s[i..i + |sub|] == sub
  }

  predicate Contains(s: string, sub: string)
    ensures Contains(s, sub) ==> |sub| <= |s|
    ensures sub == [] ==> Contains(s, sub)
  {
    assert sub == [] ==> OccursAt(s, sub, 0);
    exists i | 0 <= i <= |s| - |sub| :: OccursAt(s, sub, i)
  }

  /** Loading a document either fails with a message or gives the sizing the
      cluster configuration reports. */
  datatype Outcome = Rejected(message: string) | Loaded(sizing: ResolvedSizing)

  const UnreadableError: string := "unreadable document"

  function OutcomeOf(r: Result<ResolvedSizing, SizingError>): Outcome {
    match r
    case Success(s) => Loaded(s)
    case Failure(e) => Rejected(Message(e))
  }

  /** Loading the sizing part of a document: reading its fields, then resolving. */
  function Load(text: string): (o: Outcome)
    ensures o.Loaded? ==> SizingInvariant(o.sizing)
    ensures o.Rejected? ==> o.message == UnreadableError || exists e :: o.message == Message(e)
  {
    match ReadSizing(text)
    case None => Rejected(UnreadableError)
    case Some(raw) => OutcomeOf(Resolve(raw))
  }

  /** A check passes when loading fails with a message that contains the
      expected error, or when no error is expected and the three reported
      values are the expected ones. */
  predicate Passes(o: Outcome, expectedMin: int, expectedMax: int, expectedMinInstances: int, expectedError: string)
    ensures Passes(o, expectedMin, expectedMax, expectedMinInstances, expectedError) ==>
      (o.Loaded? <==> expectedError == "")
    ensures Passes(o, expectedMin, expectedMax, expectedMinInstances, expectedError) && o.Loaded? ==>
      o.sizing == ResolvedSizing(expectedMin, expectedMax, expectedMinInstances)
  {
    match o
    case Rejected(message) => expectedError != "" && Contains(message, expectedError)
    case Loaded(s) =>
      expectedError == "" && s.min == expectedMin && s.max == expectedMax && s.minInService == expectedMinInstances
  }

  /** One run of a check: build the document in the chosen shape, load it and
      judge the outcome, which is judging the resolution of the inputs. */
  predicate ControllerAsgPasses(configuredCount: Option<int>, configuredMin: Option<int>, configuredMax: Option<int>,
                                configuredMinInstances: Option<int>, expectedMin: int, expectedMax: int,
                                expectedMinInstances: int, expectedError: string, useDeprecatedKey: bool)
    ensures ControllerAsgPasses(configuredCount, configuredMin, configuredMax, configuredMinInstances,
                                expectedMin, expectedMax, expectedMinInstances, expectedError, useDeprecatedKey)
        <==> Passes(OutcomeOf(Resolve(RawSizing(configuredCount, configuredMin, configuredMax, configuredMinInstances))),
                    expectedMin, expectedMax, expectedMinInstances, expectedError)
  {
    var g := AutoScalingGroup(configuredMin, configuredMax, configuredMinInstances);
    LoadDocument(useDeprecatedKey, configuredCount, g);
    Passes(Load(DocumentText(useDeprecatedKey, configuredCount, g)),
           expectedMin, expectedMax, expectedMinInstances, expectedError)
  }

  /** Every check is run on the deprecated and on the current shape; it
      passes on both exactly when the resolution of its inputs passes. */
  predicate ControllerAsgsPass(configuredCount: Option<int>, configuredMin: Option<int>, configuredMax: Option<int>,
                               configuredMinInstances: Option<int>, expectedMin: int, expectedMax: int,
                               expectedMinInstances: int, expectedError: string)
    ensures ControllerAsgsPass(configuredCount, configuredMin, configuredMax, configuredMinInstances,
                               expectedMin, expectedMax, expectedMinInstances, expectedError)
        <==> Passes(OutcomeOf(Resolve(RawSizing(configuredCount, configuredMin, configuredMax, configuredMinInstances))),
                    expectedMin, expectedMax, expectedMinInstances, expectedError)
  {
    && ControllerAsgPasses(configuredCount, configuredMin, configuredMax, configuredMinInstances,
                           expectedMin, expectedMax, expectedMinInstances, expectedError, true)
    && ControllerAsgPasses(configuredCount, configuredMin, configuredMax, configuredMinInstances,
                           expectedMin, expectedMax, expectedMinInstances, expectedError, false)
  }

  /** Loading either shape is resolving the inputs it was built from. */
  lemma LoadDocument(useDeprecatedKey: bool, count: Option<int>, g: AutoScalingGroup)
    ensures Load(DocumentText(useDeprecatedKey, count, g))
         == OutcomeOf(Resolve(RawSizing(count, g.minSize, g.maxSize, g.rollingUpdateMinInstancesInService)))
  {
    ShapesResolveAlike(count, g);
  }

  /** What a check concludes from the configuration `ControllerConfig` builds:
      behind the `testConfig` prefix the loader finds the resolution of the
      check's inputs, so the check's verdict is the one on the bare document. */
  lemma ControllerConfigVerdict(testConfig: string, config: string, configuredCount: Option<int>,
                                configuredMin: Option<int>, configuredMax: Option<int>,
                                configuredMinInstances: Option<int>, useDeprecatedKey: bool, expectedMin: int,
                                expectedMax: int, expectedMinInstances: int, expectedError: string)
    requires config == testConfig + DocumentText(useDeprecatedKey, configuredCount,
      AutoScalingGroup(configuredMin, configuredMax, configuredMinInstances))
    ensures Load(config[|testConfig|..])
         == OutcomeOf(Resolve(RawSizing(configuredCount, configuredMin, configuredMax, configuredMinInstances)))
    ensures Passes(Load(config[|testConfig|..]), expectedMin, expectedMax, expectedMinInstances, expectedError)
        <==> ControllerAsgPasses(configuredCount, configuredMin, configuredMax, configuredMinInstances,
                                 expectedMin, expectedMax, expectedMinInstances, expectedError, useDeprecatedKey)
  {
    var g := AutoScalingGroup(configuredMin, configuredMax, configuredMinInstances);
    assert config[|testConfig|..] == DocumentText(useDeprecatedKey, configuredCount, g);
    LoadDocument(useDeprecatedKey, configuredCount, g);
  }

  /** The two runs of a check always agree: a check passes on the deprecated
      shape exactly when it passes on the current one. */
  lemma ShapesPassAlike(configuredCount: Option<int>, configuredMin: Option<int>, configuredMax: Option<int>,
                        configuredMinInstances: Option<int>, expectedMin: int, expectedMax: int,
                        expectedMinInstances: int, expectedError: string)
    ensures ControllerAsgPasses(configuredCount, configuredMin, configuredMax, configuredMinInstances,
                                expectedMin, expectedMax, expectedMinInstances, expectedError, true)
        <==> ControllerAsgPasses(configuredCount, configuredMin, configuredMax, configuredMinInstances,
                                 expectedMin, expectedMax, expectedMinInstances, expectedError, false)
  {
    var g := AutoScalingGroup(configuredMin, configuredMax, configuredMinInstances);
    LoadDocument(true, configuredCount, g);
    LoadDocument(false, configuredCount, g);
  }

  lemma ContainsItself(s: string)
    ensures Contains(s, s)
  {
    assert OccursAt(s, s, 0);
  }

  lemma NotContainsLonger(s: string, sub: string)
    requires |s| < |sub|
    ensures !Contains(s, sub)
  {
  }

  lemma NotContainsSameLength(s: string, sub: string)
    requires |s| == |sub| && s != sub
    ensures !Contains(s, sub)
  {
    forall i ensures !OccursAt(s, sub, i) {
      if i == 0 { assert s[0..|sub|] == s; }
    }
  }

  /** A text misses every string that holds a character the text lacks. */
  lemma NotContainsMissingChar(s: string, sub: string, k: int)
    requires 0 <= k < |sub| && sub[k] !in s
    ensures !Contains(s, sub)
  {
    forall i | 0 <= i <= |s| - |sub| ensures !OccursAt(s, sub, i) {
      assert s[i..i + |sub|][k] == s[i + k];
    }
  }

  lemma DisjointMissesZeroOrGreater()
    ensures !Contains(DisjointConfigError, ZeroOrGreaterError)
  {
    assert ZeroOrGreaterError[0] == 'm';
    NotContainsMissingChar(DisjointConfigError, ZeroOrGreaterError, 0);
  }

  lemma LessThanOrEqualMissesZeroOrGreater()
    ensures !Contains(LessThanOrEqualError, ZeroOrGreaterError)
  {
    assert ZeroOrGreaterError[8] == 'z';
    NotContainsMissingChar(LessThanOrEqualError, ZeroOrGreaterError, 8);
  }

  /** The expected error of a check identifies the error kind: each stable
      substring occurs in its own message and in no other. */
  lemma ErrorSubstringIdentifiesKind(k: SizingError, j: SizingError)
    requires j != Inconsistent
    ensures Contains(Message(k), Message(j)) <==> k == j
    ensures !Contains(UnreadableError, Message(j))
  {
    ContainsItself(Message(j));
    NotContainsLonger(UnreadableError, Message(j));
    match k
    case OutOfRange =>
      if j != OutOfRange { NotContainsLonger(Message(k), Message(j)); }
    case Disjoint =>
      if j == OutOfRange { DisjointMissesZeroOrGreater(); }
      else if j == Relational { NotContainsSameLength(Message(k), Message(j)); }
    case Relational =>
      if j == OutOfRange { LessThanOrEqualMissesZeroOrGreater(); }
      else if j == Disjoint { NotContainsSameLength(Message(k), Message(j)); }
    case Inconsistent =>
      NotContainsLonger(Message(k), Message(j));
  }

  /** So a check pins the resolution down: with no expected error it passes
      exactly on the expected triple, with an expected error exactly on that
      error kind. */
  lemma PassesPinsResolution(r: Result<ResolvedSizing, SizingError>, expectedMin: int, expectedMax: int,
                             expectedMinInstances: int, j: SizingError)
    requires j != Inconsistent
    ensures Passes(OutcomeOf(r), expectedMin, expectedMax, expectedMinInstances, "")
        <==> r == Success(ResolvedSizing(expectedMin, expectedMax, expectedMinInstances))
    ensures Passes(OutcomeOf(r), expectedMin, expectedMax, expectedMinInstances, Message(j))
        <==> r == Failure(j)
  {
    if r.Failure? {
      ErrorSubstringIdentifiesKind(r.error, j);
    }
  }

  /** A check passes on both shapes when it passes on the resolution of its inputs. */
  lemma PassesOnBothShapes(configuredCount: Option<int>, configuredMin: Option<int>, configuredMax: Option<int>,
                           configuredMinInstances: Option<int>, expectedMin: int, expectedMax: int,
                           expectedMinInstances: int, expectedError: string)
    requires Passes(OutcomeOf(Resolve(RawSizing(configuredCount, configuredMin, configuredMax, configuredMinInstances))),
                    expectedMin, expectedMax, expectedMinInstances, expectedError)
    ensures ControllerAsgsPass(configuredCount, configuredMin, configuredMax, configuredMinInstances,
                               expectedMin, expectedMax, expectedMinInstances, expectedError)
  {
    var g := AutoScalingGroup(configuredMin, configuredMax, configuredMinInstances);
    LoadDocument(true, configuredCount, g);
    LoadDocument(false, configuredCount, g);
  }

  // The recorded checks

  lemma AsgsAllDefaults()
    ensures Resolve(RawSizing(None, None, None, None)) == Success(ResolvedSizing(1, 1, 0))
    ensures ControllerAsgsPass(None, None, None, None, 1, 1, 0, "")
  {
    ResolveAllAbsent();
    PassesOnBothShapes(None, None, None, None, 1, 1, 0, "");
  }

  lemma AsgsDefaultToMainCount()
    ensures Resolve(RawSizing(Some(6), None, None, None)) == Success(ResolvedSizing(6, 6, 5))
    ensures ControllerAsgsPass(Some(6), None, None, None, 6, 6, 5, "")
  {
    ResolveCountOnly(6);
    PassesOnBothShapes(Some(6), None, None, None, 6, 6, 5, "");
  }

  lemma AsgsInvalidMainCount()
    ensures Resolve(RawSizing(Some(-1), None, None, None)) == Failure(OutOfRange)
    ensures ControllerAsgsPass(Some(-1), None, None, None, 0, 0, 0, ZeroOrGreaterError)
  {
    ResolveNegativeCount(-1);
    ContainsItself(ZeroOrGreaterError);
    PassesOnBothShapes(Some(-1), None, None, None, 0, 0, 0, ZeroOrGreaterError);
  }

  lemma AsgsOnlyMinConfigured()
    ensures Resolve(RawSizing(None, Some(4), None, None)) == Failure(Relational)
    ensures ControllerAsgsPass(None, Some(4), None, None, 0, 0, 0, LessThanOrEqualError)
  {
    ResolveMinWithoutMax(4);
    ContainsItself(LessThanOrEqualError);
    PassesOnBothShapes(None, Some(4), None, None, 0, 0, 0, LessThanOrEqualError);
  }

  lemma AsgsOnlyMaxConfigured()
    ensures Resolve(RawSizing(None, None, Some(3), None)) == Success(ResolvedSizing(1, 3, 2))
    ensures ControllerAsgsPass(None, None, Some(3), None, 1, 3, 2, "")
  {
    ResolveMaxOnly(3);
    PassesOnBothShapes(None, None, Some(3), None, 1, 3, 2, "");
  }

  lemma AsgsMinMaxConfigured()
    ensures Resolve(RawSizing(None, Some(2), Some(5), None)) == Success(ResolvedSizing(2, 5, 4))
    ensures ControllerAsgsPass(None, Some(2), Some(5), None, 2, 5, 4, "")
  {
    ResolveExplicit(2, 5, None);
    PassesOnBothShapes(None, Some(2), Some(5), None, 2, 5, 4, "");
  }

  lemma AsgsInvalidMin()
    ensures Resolve(RawSizing(None, Some(-1), Some(5), None)) == Failure(OutOfRange)
    ensures ControllerAsgsPass(None, Some(-1), Some(5), None, 0, 0, 0, ZeroOrGreaterError)
  {
    ResolveNegativeBound(Some(-1), Some(5));
    ContainsItself(ZeroOrGreaterError);
    PassesOnBothShapes(None, Some(-1), Some(5), None, 0, 0, 0, ZeroOrGreaterError);
  }

  lemma AsgsInvalidMax()
    ensures Resolve(RawSizing(None, Some(1), Some(-1), None)) == Failure(OutOfRange)
    ensures ControllerAsgsPass(None, Some(1), Some(-1), None, 0, 0, 0, ZeroOrGreaterError)
  {
    ResolveNegativeBound(Some(1), Some(-1));
    ContainsItself(ZeroOrGreaterError);
    PassesOnBothShapes(None, Some(1), Some(-1), None, 0, 0, 0, ZeroOrGreaterError);
  }

  lemma AsgsMinConfiguredWithMainCount()
    ensures Resolve(RawSizing(Some(2), Some(4), None, None)) == Failure(Disjoint)
    ensures ControllerAsgsPass(Some(2), Some(4), None, None, 0, 0, 0, DisjointConfigError)
  {
    ResolveCountExcludesBounds(RawSizing(Some(2), Some(4), None, None));
    ContainsItself(DisjointConfigError);
    PassesOnBothShapes(Some(2), Some(4), None, None, 0, 0, 0, DisjointConfigError);
  }

  lemma AsgsMaxConfiguredWithMainCount()
    ensures Resolve(RawSizing(Some(2), None, Some(4), None)) == Failure(Disjoint)
    ensures ControllerAsgsPass(Some(2), None, Some(4), None, 0, 0, 0, DisjointConfigError)
  {
    ResolveCountExcludesBounds(RawSizing(Some(2), None, Some(4), None));
    ContainsItself(DisjointConfigError);
    PassesOnBothShapes(Some(2), None, Some(4), None, 0, 0, 0, DisjointConfigError);
  }

  lemma AsgsMinMaxConfiguredWithMainCount()
    ensures Resolve(RawSizing(Some(2), Some(3), Some(4), None)) == Failure(Disjoint)
    ensures ControllerAsgsPass(Some(2), Some(3), Some(4), None, 0, 0, 0, DisjointConfigError)
  {
    ResolveCountExcludesBounds(RawSizing(Some(2), Some(3), Some(4), None));
    ContainsItself(DisjointConfigError);
    PassesOnBothShapes(Some(2), Some(3), Some(4), None, 0, 0, 0, DisjointConfigError);
  }

  lemma AsgsMinInServiceConfigured()
    ensures Resolve(RawSizing(None, Some(5), Some(10), Some(7))) == Success(ResolvedSizing(5, 10, 7))
    ensures ControllerAsgsPass(None, Some(5), Some(10), Some(7), 5, 10, 7, "")
  {
    ResolveExplicit(5, 10, Some(7));
    PassesOnBothShapes(None, Some(5), Some(10), Some(7), 5, 10, 7, "");
  }
}

=== FILE: decimal.dfy ===
/** Decimal rendering of integers, as `%d` writes them, and the reading that
    undoes it. */
module Decimal {
  import opened Wrappers

  predicate IsDigit(c: char) {
    '0' <= c <= '9'
  }

  predicate AllDigits(s: string) {
    forall i :: 0 <= i < |s| ==> IsDigit(s[i])
  }

  function DigitValue(c: char): (d: nat)
    requires IsDigit(c)
    ensures d < 10
  {
    c as int - '0' as int
  }

  function DigitChar(d: nat): (c: char)
    requires d < 10
    ensures IsDigit(c) && DigitValue(c) == d
  {
    ('0' as int + d) as char
  }

  /** The shortest decimal numeral of `n` (no leading zeros). */
  function NatToString(n: nat): (s: string)
    ensures |s| > 0 && AllDigits(s)
    ensures |s| > 1 ==> s[0] != '0'
    decreases n
  {
    if n < 10 then [DigitChar(n)] else NatToString(n / 10) + [DigitChar(n % 10)]
  }

  /** `%d`: a minus sign for negative values, then the digits of the magnitude. */
  function IntToString(v: int): (s: string)
    ensures |s| > 0
    ensures '\n' !in s && ' ' !in s && ':' !in s
    ensures (s[0] == '-') == (v < 0)
  {
    if v < 0 then "-" + NatToString(-v) else NatToString(v)
  }

  /** The number a non-empty string of digits denotes. */
  function DigitsValue(s: string): nat
    requires AllDigits(s)
    decreases |s|
  {
    if s == [] then 0 else DigitsValue(s[..|s| - 1]) * 10 + DigitValue(s[|s| - 1])
  }

  function ParseNat(s: string): Option<nat> {
    if |s| > 0 && AllDigits(s) then Some(DigitsValue(s)) else None
  }

  /** Reads an optionally signed decimal numeral; anything else is not a number. */
  function ParseInt(s: string): Option<int> {
    if |s| > 0 && s[0] == '-' then
      match ParseNat(s[1..])
      case Some(n) => Some(-(n as int))
      case None => None
    else
      match ParseNat(s)
      case Some(n) => Some(n)
      case None => None
  }

  lemma {:induction false} DigitsValueOfNatToString(n: nat)
    ensures DigitsValue(NatToString(n)) == n
    decreases n
  {
    if n >= 10 {
      var prefix := NatToString(n / 10);
      var s := prefix + [DigitChar(n % 10)];
      assert s[..|s| - 1] == prefix;
      DigitsValueOfNatToString(n / 10);
    }
  }

  /** Reading back what `%d` wrote gives the original integer. */
  lemma ParseIntOfIntToString(v: int)
    ensures ParseInt(IntToString(v)) == Some(v)
  {
    if v < 0 {
      var s := IntToString(v);
      assert s[1..] == NatToString(-v);
      DigitsValueOfNatToString(-v);
    } else {
      DigitsValueOfNatToString(v);
    }
  }

  /** Hence `%d` never writes two integers the same way. */
  lemma IntToStringInjective(v: int, w: int)
    requires IntToString(v) == IntToString(w)
    ensures v == w
  {
    ParseIntOfIntToString(v);
    ParseIntOfIntToString(w);
  }
}

=== FILE: documents.dfy ===
/** The two document shapes that carry the controller sizing: the deprecated
    one with `controllerCount` at the top level and the current one with
    `count` under `controller:`. Both share the `autoScalingGroup` block. */
module ControllerDocuments {
  import opened Wrappers
  import opened Entries
  import opened ControllerSizing

  datatype AutoScalingGroup = AutoScalingGroup(
    minSize: Option<int>,
    maxSize: Option<int>,
    rollingUpdateMinInstancesInService: Option<int>)

  /** `controllerCount: N` at the top level. */
  datatype DeprecatedDocument = DeprecatedDocument(controllerCount: Option<int>, autoScalingGroup: AutoScalingGroup)

  /** `controller:` then `  count: N`. */
  datatype CurrentDocument = CurrentDocument(count: Option<int>, autoScalingGroup: AutoScalingGroup)

  predicate IsEmpty(g: AutoScalingGroup) {
    g.minSize.None? && g.maxSize.None? && g.rollingUpdateMinInstancesInService.None?
  }

  // Normalisation: both shapes to the one raw input record

  /** The deprecated shape's top-level `controllerCount` becomes the count. */
  function FromDeprecated(d: DeprecatedDocument): (raw: RawSizing)
    ensures raw.count == d.controllerCount && GroupOf(raw) == d.autoScalingGroup
  {
    var g := d.autoScalingGroup;
    RawSizing(d.controllerCount, g.minSize, g.maxSize, g.rollingUpdateMinInstancesInService)
  }

  /** The current shape's `controller.count` becomes the count. */
  function FromCurrent(d: CurrentDocument): (raw: RawSizing)
    ensures raw.count == d.count && GroupOf(raw) == d.autoScalingGroup
  {
    var g := d.autoScalingGroup;
    RawSizing(d.count, g.minSize, g.maxSize, g.rollingUpdateMinInstancesInService)
  }

  function GroupOf(raw: RawSizing): AutoScalingGroup {
    AutoScalingGroup(raw.minSize, raw.maxSize, raw.minInService)
  }

  /** Each normaliser loses nothing: every raw input has exactly one document
      of each shape. */
  lemma NormalisersAreBijective(raw: RawSizing, d: DeprecatedDocument, c: CurrentDocument)
    ensures FromDeprecated(DeprecatedDocument(raw.count, GroupOf(raw))) == raw
    ensures FromCurrent(CurrentDocument(raw.count, GroupOf(raw))) == raw
    ensures FromDeprecated(d) == raw <==> d == DeprecatedDocument(raw.count, GroupOf(raw))
    ensures FromCurrent(c) == raw <==> c == CurrentDocument(raw.count, GroupOf(raw))
  {
  }

  // The lines of each shape

  function Optional(indent: nat, key: string, v: Option<int>): seq<Entry> {
    if v.Some? then [Entry(indent, key, v)] else []
  }

  function GroupBody(g: AutoScalingGroup): seq<Entry> {
    Optional(4, "minSize", g.minSize)
      + Optional(4, "maxSize", g.maxSize)
      + Optional(4, "rollingUpdateMinInstancesInService", g.rollingUpdateMinInstancesInService)
  }

  /** The `autoScalingGroup:` block, left out altogether when it would be empty. */
  function GroupEntries(g: AutoScalingGroup): seq<Entry> {
    var body := GroupBody(g);
    if body == [] then [] else [Entry(2, "autoScalingGroup", None)] + body
  }

  /** The `controller:` key, left out when it would have nothing under it: an
      empty `controller` makes the YAML decoder replace the whole controller
      settings with their zero value. */
  function ControllerEntries(body: seq<Entry>): seq<Entry> {
    if body == [] then [] else [Entry(0, "controller", None)] + body
  }

  function DeprecatedEntries(d: DeprecatedDocument): seq<Entry> {
    Optional(0, "controllerCount", d.controllerCount) + ControllerEntries(GroupEntries(d.autoScalingGroup))
  }

  function CurrentEntries(d: CurrentDocument): seq<Entry> {
    ControllerEntries(Optional(2, "count", d.count) + GroupEntries(d.autoScalingGroup))
  }

  function DeprecatedText(d: DeprecatedDocument): string {
    Render(DeprecatedEntries(d))
  }

  function CurrentText(d: CurrentDocument): string {
    Render(CurrentEntries(d))
  }

  // Reading the sizing fields back from a document

  /** The mapping the reader is in: the top level, `controller`, or
      `controller.autoScalingGroup`. */
  datatype Section = TopLevel | InController | InGroup

  /** The effect of one line on the section and on the fields read so far;
      `None` for a line that is not one of the sizing keys at its place. */
  function Step(e: Entry, section: Section, acc: RawSizing): Option<(Section, RawSizing)> {
    if e.indent == 0 then
      if e.key == "controllerCount" && e.value.Some? then Some((TopLevel, acc.(count := e.value)))
      else if e.key == "controller" && e.value.None? then Some((InController, acc))
      else None
    else if e.indent == 2 && section != TopLevel then
      if e.key == "count" && e.value.Some? then Some((InController, acc.(count := e.value)))
      else if e.key == "autoScalingGroup" && e.value.None? then Some((InGroup, acc))
      else None
    else if e.indent == 4 && section == InGroup && e.value.Some? then
      if e.key == "minSize" then Some((InGroup, acc.(minSize := e.value)))
      else if e.key == "maxSize" then Some((InGroup, acc.(maxSize := e.value)))
      else if e.key == "rollingUpdateMinInstancesInService" then Some((InGroup, acc.(minInService := e.value)))
      else None
    else None
  }

  function Run(es: seq<Entry>, section: Section, acc: RawSizing): Option<(Section, RawSizing)>
    decreases |es|
  {
    if es == [] then Some((section, acc))
    else
      match Step(es[0], section, acc)
      case None => None
      case Some(next) => Run(es[1..], next.0, next.1)
  }

  /** The sizing fields of a document, both locations of the count included;
      `None` for a document that holds anything else. */
  function ReadSizing(text: string): Option<RawSizing> {
    match ReadEntries(text)
    case None => None
    case Some(es) =>
      match Run(es, TopLevel, Unset)
      case None => None
      case Some(final) => Some(final.1)
  }

  lemma {:induction false} RunAppend(a: seq<Entry>, b: seq<Entry>, section: Section, acc: RawSizing)
    ensures Run(a + b, section, acc) ==
      match Run(a, section, acc)
      case None => None
      case Some(mid) => Run(b, mid.0, mid.1)
    decreases |a|
  {
    if a == [] {
      assert a + b == b;
    } else {
      assert (a + b)[0] == a[0];
      assert (a + b)[1..] == a[1..] + b;
      match Step(a[0], section, acc)
      case None =>
      case Some(next) => RunAppend(a[1..], b, next.0, next.1);
    }
  }

  lemma RunSingle(e: Entry, section: Section, acc: RawSizing)
    ensures Run([e], section, acc) == Step(e, section, acc)
  {
    assert [e][1..] == [];
  }

  lemma RunMinSize(v: Option<int>, acc: RawSizing)
    requires acc.minSize.None?
    ensures Run(Optional(4, "minSize", v), InGroup, acc) == Some((InGroup, acc.(minSize := v)))
  {
    if v.Some? { RunSingle(Entry(4, "minSize", v), InGroup, acc); }
  }

  lemma RunMaxSize(v: Option<int>, acc: RawSizing)
    requires acc.maxSize.None?
    ensures Run(Optional(4, "maxSize", v), InGroup, acc) == Some((InGroup, acc.(maxSize := v)))
  {
    if v.Some? { RunSingle(Entry(4, "maxSize", v), InGroup, acc); }
  }

  lemma RunMinInService(v: Option<int>, acc: RawSizing)
    requires acc.minInService.None?
    ensures Run(Optional(4, "rollingUpdateMinInstancesInService", v), InGroup, acc)
         == Some((InGroup, acc.(minInService := v)))
  {
    if v.Some? { RunSingle(Entry(4, "rollingUpdateMinInstancesInService", v), InGroup, acc); }
  }

  /** Reading the group block, from `controller` or from inside the group,
      sets exactly the three group fields. */
  lemma RunGroup(g: AutoScalingGroup, section: Section, count: Option<int>)
    requires section != TopLevel
    ensures Run(GroupEntries(g), section, RawSizing(count, None, None, None)).Some?
    ensures Run(GroupEntries(g), section, RawSizing(count, None, None, None)).value.1
         == RawSizing(count, g.minSize, g.maxSize, g.rollingUpdateMinInstancesInService)
    ensures Run(GroupEntries(g), section, RawSizing(count, None, None, None)).value.0 != TopLevel
  {
    var acc := RawSizing(count, None, None, None);
    var mins := Optional(4, "minSize", g.minSize);
    var maxs := Optional(4, "maxSize", g.maxSize);
    var floors := Optional(4, "rollingUpdateMinInstancesInService", g.rollingUpdateMinInstancesInService);
    var body := GroupBody(g);
    var acc1 := acc.(minSize := g.minSize);
    var acc2 := acc1.(maxSize := g.maxSize);
    RunMinSize(g.minSize, acc);
    RunMaxSize(g.maxSize, acc1);
    RunMinInService(g.rollingUpdateMinInstancesInService, acc2);
    RunAppend(mins, maxs, InGroup, acc);
    RunAppend(mins + maxs, floors, InGroup, acc);
    if body != [] {
      var header := Entry(2, "autoScalingGroup", None);
      RunSingle(header, section, acc);
      RunAppend([header], body, section, acc);
    }
  }

  /** Every key of both shapes is well-formed. */
  lemma SizingKeysWellFormed()
    ensures WellFormedKey("controllerCount") && WellFormedKey("controller") && WellFormedKey("count")
    ensures WellFormedKey("autoScalingGroup")
    ensures WellFormedKey("minSize") && WellFormedKey("maxSize")
    ensures WellFormedKey("rollingUpdateMinInstancesInService")
  {
  }

  lemma OptionalWellFormed(indent: nat, key: string, v: Option<int>)
    requires WellFormedKey(key)
    ensures AllWellFormed(Optional(indent, key, v))
  {
  }

  lemma GroupBodyWellFormed(g: AutoScalingGroup)
    ensures AllWellFormed(GroupBody(g))
  {
    var mins := Optional(4, "minSize", g.minSize);
    var maxs := Optional(4, "maxSize", g.maxSize);
    var floors := Optional(4, "rollingUpdateMinInstancesInService", g.rollingUpdateMinInstancesInService);
    SizingKeysWellFormed();
    OptionalWellFormed(4, "minSize", g.minSize);
    OptionalWellFormed(4, "maxSize", g.maxSize);
    OptionalWellFormed(4, "rollingUpdateMinInstancesInService", g.rollingUpdateMinInstancesInService);
    AllWellFormedAppend(mins, maxs);
    AllWellFormedAppend(mins + maxs, floors);
  }

  lemma GroupWellFormed(g: AutoScalingGroup)
    ensures AllWellFormed(GroupEntries(g))
  {
    var body := GroupBody(g);
    GroupBodyWellFormed(g);
    if body != [] {
      SizingKeysWellFormed();
      var header := Entry(2, "autoScalingGroup", None);
      assert AllWellFormed([header]);
      AllWellFormedAppend([header], body);
    }
  }

  lemma DeprecatedWellFormed(d: DeprecatedDocument)
    ensures AllWellFormed(DeprecatedEntries(d))
  {
    SizingKeysWellFormed();
    OptionalWellFormed(0, "controllerCount", d.controllerCount);
    GroupWellFormed(d.autoScalingGroup);
    var header := Entry(0, "controller", None);
    assert AllWellFormed([header]);
    var group := GroupEntries(d.autoScalingGroup);
    AllWellFormedAppend([header], group);
    AllWellFormedAppend(Optional(0, "controllerCount", d.controllerCount), ControllerEntries(group));
  }

  lemma CurrentWellFormed(d: CurrentDocument)
    ensures AllWellFormed(CurrentEntries(d))
  {
    SizingKeysWellFormed();
    OptionalWellFormed(2, "count", d.count);
    GroupWellFormed(d.autoScalingGroup);
    var header := Entry(0, "controller", None);
    assert AllWellFormed([header]);
    var body := Optional(2, "count", d.count) + GroupEntries(d.autoScalingGroup);
    AllWellFormedAppend(Optional(2, "count", d.count), GroupEntries(d.autoScalingGroup));
    AllWellFormedAppend([header], body);
  }

  /** Reading a rendered document is running the reader over its lines. */
  lemma ReadSizingOfRender(es: seq<Entry>)
    requires AllWellFormed(es)
    ensures ReadSizing(Render(es)) == match Run(es, TopLevel, Unset)
                                      case None => None
                                      case Some(final) => Some(final.1)
  {
    ReadEntriesOfRender(es);
  }

  lemma RunDeprecated(d: DeprecatedDocument)
    ensures Run(DeprecatedEntries(d), TopLevel, Unset).Some?
    ensures Run(DeprecatedEntries(d), TopLevel, Unset).value.1 == FromDeprecated(d)
  {
    var counts := Optional(0, "controllerCount", d.controllerCount);
    var group := GroupEntries(d.autoScalingGroup);
    var rest := ControllerEntries(group);
    RunAppend(counts, rest, TopLevel, Unset);
    if counts != [] { RunSingle(counts[0], TopLevel, Unset); }
    var acc := Unset.(count := d.controllerCount);
    if rest != [] {
      var header := Entry(0, "controller", None);
      RunSingle(header, TopLevel, acc);
      RunAppend([header], group, TopLevel, acc);
      RunGroup(d.autoScalingGroup, InController, d.controllerCount);
    }
  }

  lemma RunCurrent(d: CurrentDocument)
    ensures Run(CurrentEntries(d), TopLevel, Unset).Some?
    ensures Run(CurrentEntries(d), TopLevel, Unset).value.1 == FromCurrent(d)
  {
    var counts := Optional(2, "count", d.count);
    var group := GroupEntries(d.autoScalingGroup);
    var body := counts + group;
    if body != [] {
      var header := Entry(0, "controller", None);
      RunSingle(header, TopLevel, Unset);
      RunAppend([header], body, TopLevel, Unset);
      RunAppend(counts, group, InController, Unset);
      if counts != [] { RunSingle(counts[0], InController, Unset); }
      RunGroup(d.autoScalingGroup, InController, d.count);
    }
  }

  /** The deprecated document reads back as what its normaliser gives. */
  lemma ReadDeprecated(d: DeprecatedDocument)
    ensures ReadSizing(DeprecatedText(d)) == Some(FromDeprecated(d))
  {
    DeprecatedWellFormed(d);
    ReadSizingOfRender(DeprecatedEntries(d));
    RunDeprecated(d);
  }

  /** The current document reads back as what its normaliser gives. */
  lemma ReadCurrent(d: CurrentDocument)
    ensures ReadSizing(CurrentText(d)) == Some(FromCurrent(d))
  {
    CurrentWellFormed(d);
    ReadSizingOfRender(CurrentEntries(d));
    RunCurrent(d);
  }

  /** Path equivalence: the deprecated and the current document for the same
      inputs read as the same raw input, so they resolve to the same sizing or
      to the same error. */
  lemma ShapesResolveAlike(count: Option<int>, g: AutoScalingGroup)
    ensures ReadSizing(DeprecatedText(DeprecatedDocument(count, g)))
         == ReadSizing(CurrentText(CurrentDocument(count, g)))
         == Some(RawSizing(count, g.minSize, g.maxSize, g.rollingUpdateMinInstancesInService))
  {
    ReadDeprecated(DeprecatedDocument(count, g));
    ReadCurrent(CurrentDocument(count, g));
  }

  /** Every mapping key (a line without a value) has a more deeply indented
      line right under it. */
  predicate NoEmptyMapping(es: seq<Entry>) {
    forall i :: 0 <= i < |es| && es[i].value.None? ==> i + 1 < |es| && es[i + 1].indent > es[i].indent
  }

  lemma NoEmptyMappingAppend(a: seq<Entry>, b: seq<Entry>)
    requires NoEmptyMapping(a) && NoEmptyMapping(b)
    ensures NoEmptyMapping(a + b)
  {
    var ab := a + b;
    forall i | 0 <= i < |ab| && ab[i].value.None?
      ensures i + 1 < |ab| && ab[i + 1].indent > ab[i].indent
    {
      if i < |a| {
        assert ab[i] == a[i] && ab[i + 1] == a[i + 1];
      } else {
        assert ab[i] == b[i - |a|];
        assert i + 1 < |ab| ==> ab[i + 1] == b[i + 1 - |a|];
      }
    }
  }

  lemma NoEmptyMappingUnder(header: Entry, body: seq<Entry>)
    requires body != [] && body[0].indent > header.indent
    requires NoEmptyMapping(body)
    ensures NoEmptyMapping([header] + body)
  {
    var hb := [header] + body;
    forall i | 0 <= i < |hb| && hb[i].value.None?
      ensures i + 1 < |hb| && hb[i + 1].indent > hb[i].indent
    {
      if i > 0 {
        assert hb[i] == body[i - 1];
        assert i + 1 < |hb| ==> hb[i + 1] == body[i];
      }
    }
  }

  lemma GroupHasNoEmptyMapping(g: AutoScalingGroup)
    ensures NoEmptyMapping(GroupEntries(g))
    ensures GroupEntries(g) != [] ==> GroupEntries(g)[0].indent == 2
  {
    var mins := Optional(4, "minSize", g.minSize);
    var maxs := Optional(4, "maxSize", g.maxSize);
    var floors := Optional(4, "rollingUpdateMinInstancesInService", g.rollingUpdateMinInstancesInService);
    NoEmptyMappingAppend(mins, maxs);
    NoEmptyMappingAppend(mins + maxs, floors);
    var body := GroupBody(g);
    if body != [] {
      assert body[0].indent == 4;
      NoEmptyMappingUnder(Entry(2, "autoScalingGroup", None), body);
    }
  }

  /** No mapping key of the deprecated shape is left with nothing under it. */
  lemma DeprecatedHasNoEmptyMapping(d: DeprecatedDocument)
    ensures NoEmptyMapping(DeprecatedEntries(d))
  {
    GroupHasNoEmptyMapping(d.autoScalingGroup);
    var group := GroupEntries(d.autoScalingGroup);
    if group != [] { NoEmptyMappingUnder(Entry(0, "controller", None), group); }
    NoEmptyMappingAppend(Optional(0, "controllerCount", d.controllerCount), ControllerEntries(group));
  }

  /** No mapping key of the current shape is left with nothing under it. */
  lemma CurrentHasNoEmptyMapping(c: CurrentDocument)
    ensures NoEmptyMapping(CurrentEntries(c))
  {
    GroupHasNoEmptyMapping(c.autoScalingGroup);
    var counts := Optional(2, "count", c.count);
    var body := counts + GroupEntries(c.autoScalingGroup);
    NoEmptyMappingAppend(counts, GroupEntries(c.autoScalingGroup));
    if body != [] {
      assert body[0].indent == 2;
      NoEmptyMappingUnder(Entry(0, "controller", None), body);
    }
  }
}

=== FILE: entries.dfy ===
/** The block-mapping lines the configuration documents are made of: `indent`
    spaces, a key, a colon and, for a scalar, one space and a decimal integer.
    A line with no value opens a nested mapping. This is the part of YAML the
    sizing documents use, with a reader for exactly that part. */
module Entries {
  import opened Wrappers
  import Decimal

  datatype Entry = Entry(indent: nat, key: string, value: Option<int>)

  /** Keys the line syntax can carry unambiguously. */
  predicate WellFormedKey(key: string) {
    |key| > 0 && key[0] != ' ' && ':' !in key && '\n' !in key
  }

  predicate WellFormed(e: Entry) {
    WellFormedKey(e.key)
  }

  predicate AllWellFormed(es: seq<Entry>) {
    forall i :: 0 <= i < |es| ==> WellFormed(es[i])
  }

  function Spaces(n: nat): (s: string)
    ensures |s| == n && forall i :: 0 <= i < n ==> s[i] == ' '
  {
    seq(n, _ => ' ')
  }

  function ValueText(v: Option<int>): string {
    match v
    case None => ""
    case Some(x) => " " + Decimal.IntToString(x)
  }

  /** One line without its terminating newline. */
  function EntryLine(e: Entry): string {
    Spaces(e.indent) + e.key + ":" + ValueText(e.value)
  }

  function EntryText(e: Entry): string {
    EntryLine(e) + "\n"
  }

  /** The document text of a sequence of lines. */
  function Render(es: seq<Entry>): string
    decreases |es|
  {
    if es == [] then "" else EntryText(es[0]) + Render(es[1..])
  }

  /** Position of the first `c` in `s`, or `|s|` when there is none. */
  function IndexOf(s: string, c: char): (n: nat)
    ensures n <= |s|
    ensures forall i :: 0 <= i < n ==> s[i] != c
    ensures n < |s| ==> s[n] == c
    decreases |s|
  {
    if s == [] || s[0] == c then 0 else 1 + IndexOf(s[1..], c)
  }

  /** Number of spaces `s` starts with. */
  function LeadingSpaces(s: string): (n: nat)
    ensures n <= |s|
    ensures forall i :: 0 <= i < n ==> s[i] == ' '
    ensures n < |s| ==> s[n] != ' '
    decreases |s|
  {
    if s == [] || s[0] != ' ' then 0 else 1 + LeadingSpaces(s[1..])
  }

  /** Reads one line (without its newline); `None` when it is not of the form
      `indent key:` or `indent key: integer`. */
  function ParseEntry(line: string): Option<Entry> {
    var indent := LeadingSpaces(line);
    var rest := line[indent..];
    var colon := IndexOf(rest, ':');
    if colon == 0 || colon == |rest| then None
    else
      var key := rest[..colon];
      var tail := rest[colon + 1..];
      if tail == [] then Some(Entry(indent, key, None))
      else if tail[0] == ' ' then
        match Decimal.ParseInt(tail[1..])
        case Some(v) => Some(Entry(indent, key, Some(v)))
        case None => None
      else None
  }

  /** Reads a whole document, line by line; every line must end in a newline. */
  function ReadEntries(text: string): Option<seq<Entry>>
    decreases |text|
  {
    if text == [] then Some([])
    else
      var n := IndexOf(text, '\n');
      if n == |text| then None
      else
        match ParseEntry(text[..n])
        case None => None
        case Some(e) =>
          match ReadEntries(text[n + 1..])
          case None => None
          case Some(es) => Some([e] + es)
  }

  lemma EntryLineHasNoNewline(e: Entry)
    requires WellFormed(e)
    ensures '\n' !in EntryLine(e)
  {
    var s := EntryLine(e);
    forall i | 0 <= i < |s| ensures s[i] != '\n' {
      var n, k := e.indent, |e.key|;
      if i < n {
        assert s[i] == ' ';
      } else if i < n + k {
        assert s[i] == e.key[i - n];
      } else if i == n + k {
        assert s[i] == ':';
      } else {
        var v := e.value.value;
        assert s[i] == (" " + Decimal.IntToString(v))[i - n - k - 1];
      }
    }
  }

  /** The first occurrence of `c` in `front + [c] + back`, when `front` has none. */
  lemma IndexOfAfter(front: string, c: char, back: string)
    requires c !in front
    ensures IndexOf(front + [c] + back, c) == |front|
    ensures (front + [c] + back)[..|front|] == front
    ensures (front + [c] + back)[|front| + 1..] == back
  {
    var s := front + [c] + back;
    assert forall i :: 0 <= i < |front| ==> s[i] == front[i];
    assert s[|front|] == c;
    assert s[..|front|] == front;
  }

  lemma LeadingSpacesOfIndented(n: nat, rest: string)
    requires rest != [] && rest[0] != ' '
    ensures LeadingSpaces(Spaces(n) + rest) == n
    ensures (Spaces(n) + rest)[n..] == rest
  {
    var s := Spaces(n) + rest;
    assert forall i :: 0 <= i < n ==> s[i] == ' ';
    assert s[n] == rest[0];
    assert s[n..] == rest;
  }

  /** Reading a line splits off its indentation and its key. */
  lemma ParseEntryOfParts(indent: nat, key: string, tail: string)
    requires WellFormedKey(key)
    ensures ParseEntry(Spaces(indent) + (key + [':'] + tail))
         == if tail == [] then Some(Entry(indent, key, None))
            else if tail[0] == ' ' then
              match Decimal.ParseInt(tail[1..])
              case Some(v) => Some(Entry(indent, key, Some(v)))
              case None => None
            else None
  {
    var rest := key + [':'] + tail;
    assert rest[0] == key[0];
    LeadingSpacesOfIndented(indent, rest);
    IndexOfAfter(key, ':', tail);
  }

  /** Reading a line gives back the entry it was written from. */
  lemma ParseEntryLine(e: Entry)
    requires WellFormed(e)
    ensures ParseEntry(EntryLine(e)) == Some(e)
  {
    var tail := ValueText(e.value);
    assert EntryLine(e) == Spaces(e.indent) + (e.key + [':'] + tail);
    ParseEntryOfParts(e.indent, e.key, tail);
    if e.value.Some? {
      assert tail[1..] == Decimal.IntToString(e.value.value);
      Decimal.ParseIntOfIntToString(e.value.value);
    }
  }

  /** One step of the reader: a line, its newline, and the rest of the document. */
  lemma ReadEntriesStep(line: string, rest: string, e: Entry, es: seq<Entry>)
    requires '\n' !in line && ParseEntry(line) == Some(e) && ReadEntries(rest) == Some(es)
    ensures ReadEntries(line + ['\n'] + rest) == Some([e] + es)
  {
    IndexOfAfter(line, '\n', rest);
  }

  lemma AllWellFormedTail(es: seq<Entry>)
    requires es != [] && AllWellFormed(es)
    ensures WellFormed(es[0]) && AllWellFormed(es[1..])
  {
    forall i | 0 <= i < |es[1..]| ensures WellFormed(es[1..][i]) {
      assert es[1..][i] == es[i + 1];
    }
  }

  /** Reading a rendered document gives back its lines. */
  lemma {:induction false} ReadEntriesOfRender(es: seq<Entry>)
    requires AllWellFormed(es)
    ensures ReadEntries(Render(es)) == Some(es)
    decreases |es|
  {
    if es != [] {
      AllWellFormedTail(es);
      EntryLineHasNoNewline(es[0]);
      ParseEntryLine(es[0]);
      ReadEntriesOfRender(es[1..]);
      ReadEntriesStep(EntryLine(es[0]), Render(es[1..]), es[0], es[1..]);
      assert Render(es) == EntryLine(es[0]) + ['\n'] + Render(es[1..]);
      assert [es[0]] + es[1..] == es;
    }
  }

  lemma AllWellFormedAppend(a: seq<Entry>, b: seq<Entry>)
    requires AllWellFormed(a) && AllWellFormed(b)
    ensures AllWellFormed(a + b)
  {
    forall i | 0 <= i < |a + b| ensures WellFormed((a + b)[i]) {
      if i < |a| { assert (a + b)[i] == a[i]; } else { assert (a + b)[i] == b[i - |a|]; }
    }
  }

  lemma {:induction false} RenderAppend(a: seq<Entry>, b: seq<Entry>)
    ensures Render(a + b) == Render(a) + Render(b)
    decreases |a|
  {
    if a != [] {
      assert (a + b)[1..] == a[1..] + b;
      RenderAppend(a[1..], b);
    } else {
      assert a + b == b;
    }
  }

  /** Only the empty sequence of lines renders as the empty document. */
  lemma RenderEmpty(es: seq<Entry>)
    ensures Render(es) == "" <==> es == []
  {
    if es != [] {
      assert |EntryText(es[0])| > 0;
    }
  }
}

=== FILE: sizing.dfy ===
/** The controller Auto Scaling Group sizing resolver: from the four optional
    inputs (the legacy desired count, the group's minimum and maximum size and
    the rolling-update in-service floor) to one resolved sizing triple or a
    classified validation error. */
module ControllerSizing {
  import opened Wrappers

  /** The inputs exactly as the configuration document carries them. */
  datatype RawSizing = RawSizing(
    count: Option<int>,
    minSize: Option<int>,
    maxSize: Option<int>,
    minInService: Option<int>)

  const Unset := RawSizing(None, None, None, None)

  /** What the cluster configuration reports: `MinControllerCount()`,
      `MaxControllerCount()` and `ControllerRollingUpdateMinInstancesInService()`. */
  datatype ResolvedSizing = ResolvedSizing(min: int, max: int, minInService: int)

  /** Out-of-range value, `count` mixed with the group settings, an ordering
      violation, and the defensive post-derivation check. */
  datatype SizingError = OutOfRange | Disjoint | Relational | Inconsistent

  /** The stable substrings the error messages carry. */
  const ZeroOrGreaterError: string := "must be zero or greater"
  const DisjointConfigError: string := "can only be specified without"
  const LessThanOrEqualError: string := "must be less than or equal to"
  const InconsistentError: string := "internal sizing error"

  /** The message of each kind is its stable substring, never empty, so a
      check that expects an error always has something to look for. */
  function Message(e: SizingError): (m: string)
    ensures |m| > 0
  {
    match e
    case OutOfRange => ZeroOrGreaterError
    case Disjoint => DisjointConfigError
    case Relational => LessThanOrEqualError
    case Inconsistent => InconsistentError
  }

  /** The main count when `count` is not given. */
  const DefaultCount := 1

  /** A rolling update can always add one instance above the in-service floor. */
  predicate SizingInvariant(s: ResolvedSizing) {
    0 <= s.min <= s.max && 0 <= s.minInService < s.max
  }

  predicate Negative(v: Option<int>) {
    v.Some? && v.value < 0
  }

  /** `count` given together with any of the group settings. */
  predicate CountConflicts(raw: RawSizing) {
    raw.count.Some? && (raw.minSize.Some? || raw.maxSize.Some? || raw.minInService.Some?)
  }

  predicate AnyNegative(raw: RawSizing) {
    Negative(raw.count) || Negative(raw.minSize) || Negative(raw.maxSize) || Negative(raw.minInService)
  }

  /** The resolver. The rules are applied in this order: mutual exclusion,
      then the sign of every given value, then defaulting (the main count is
      `count` or 1; the minimum and the maximum default to the main count; the
      floor defaults to one below the maximum), then the ordering checks (a
      minimum needs a maximum, the minimum is at most the maximum, the floor
      is below the maximum), and last the defensive check that the floor is
      not negative.

      Assumptions for inputs the recorded behaviour leaves open, all made here
      and nowhere else: `count` with only a floor is a mutual-exclusion error;
      `count` with a negative bound is a mutual-exclusion error, not an
      out-of-range one, since exclusion is checked first; a negative floor is
      out of range and a floor of at least the maximum is an ordering error;
      a minimum given without a maximum is refused whatever its value, not
      only when it exceeds the default maximum; an explicit minimum above an
      explicit maximum is an ordering error; a zero maximum alone is an
      ordering error, as it is below the default minimum 1. */
  function Resolve(raw: RawSizing): (r: Result<ResolvedSizing, SizingError>)
    ensures r.Success? ==> SizingInvariant(r.value)
  {
    if CountConflicts(raw) then Failure(Disjoint)
    else if AnyNegative(raw) then Failure(OutOfRange)
    else
      var main := raw.count.GetOr(DefaultCount);
      var lo := raw.minSize.GetOr(main);
      var hi := raw.maxSize.GetOr(main);
      if raw.minSize.Some? && raw.maxSize.None? then Failure(Relational)
      else if lo > hi then Failure(Relational)
      else if raw.minInService.Some? && raw.minInService.value >= hi then Failure(Relational)
      else
        var floor := raw.minInService.GetOr(hi - 1);
        if floor < 0 then Failure(Inconsistent)
        else Success(ResolvedSizing(lo, hi, floor))
  }

  // Defaulting

  /** Nothing configured: one controller, no in-service floor. */
  lemma ResolveAllAbsent()
    ensures Resolve(Unset) == Success(ResolvedSizing(1, 1, 0))
  {
  }

  /** `count` alone fixes the group at that size, with a floor one below it. */
  lemma ResolveCountOnly(c: int)
    requires c >= 1
    ensures Resolve(RawSizing(Some(c), None, None, None)) == Success(ResolvedSizing(c, c, c - 1))
  {
  }

  /** `maxSize` alone keeps the minimum at the default main count. */
  lemma ResolveMaxOnly(m: int)
    requires m >= 1
    ensures Resolve(RawSizing(None, None, Some(m), None)) == Success(ResolvedSizing(DefaultCount, m, m - 1))
  {
  }

  // Explicit values

  /** Valid explicit bounds are used verbatim; an explicit floor below the
      maximum is used verbatim and an absent one is one below the maximum. */
  lemma ResolveExplicit(lo: int, hi: int, floor: Option<int>)
    requires 0 <= lo <= hi && hi >= 1
    requires floor.Some? ==> 0 <= floor.value < hi
    ensures Resolve(RawSizing(None, Some(lo), Some(hi), floor))
         == Success(ResolvedSizing(lo, hi, floor.GetOr(hi - 1)))
  {
  }

  /** Whatever succeeds reports every given value unchanged, and every absent
      bound as the main count (`count`, or 1 when that is absent too). */
  lemma ResolveKeepsGivenValues(raw: RawSizing)
    requires Resolve(raw).Success?
    ensures var s := Resolve(raw).value;
      && (raw.count.Some? ==> s.min == s.max == raw.count.value)
      && (raw.minSize.Some? ==> s.min == raw.minSize.value)
      && (raw.maxSize.Some? ==> s.max == raw.maxSize.value)
      && (raw.minInService.Some? ==> s.minInService == raw.minInService.value)
      && (raw.minInService.None? ==> s.minInService == s.max - 1)
      && (raw.minSize.None? ==> s.min == raw.count.GetOr(DefaultCount))
      && (raw.maxSize.None? ==> s.max == raw.count.GetOr(DefaultCount))
  {
  }

  /** Whatever succeeds came from an input without a conflict or a negative
      value, and with a maximum wherever it had a minimum. */
  lemma ResolveSuccessInputs(raw: RawSizing)
    requires Resolve(raw).Success?
    ensures !CountConflicts(raw) && !AnyNegative(raw)
    ensures raw.minSize.Some? ==> raw.maxSize.Some?
    ensures raw.minSize.Some? && raw.maxSize.Some? ==> raw.minSize.value <= raw.maxSize.value
  {
  }

  /** Conversely, every input without a conflict or a negative value, with a
      maximum wherever it has a minimum, whose defaulted bounds are ordered and
      whose floor (given or defaulted) lies below the maximum, succeeds. */
  lemma ResolveValidInputsSucceed(raw: RawSizing)
    requires !CountConflicts(raw) && !AnyNegative(raw)
    requires raw.minSize.Some? ==> raw.maxSize.Some?
    requires var main := raw.count.GetOr(DefaultCount);
      var lo := raw.minSize.GetOr(main);
      var hi := raw.maxSize.GetOr(main);
      lo <= hi && 0 <= raw.minInService.GetOr(hi - 1) < hi
    ensures Resolve(raw).Success?
  {
  }

  // Errors

  /** A negative `count` is out of range. */
  lemma ResolveNegativeCount(c: int)
    requires c < 0
    ensures Resolve(RawSizing(Some(c), None, None, None)) == Failure(OutOfRange)
  {
  }

  /** A negative bound is out of range, and this takes precedence over the
      ordering check (`minSize: 1, maxSize: -1` is out of range). */
  lemma ResolveNegativeBound(lo: Option<int>, hi: Option<int>)
    requires Negative(lo) || Negative(hi)
    ensures Resolve(RawSizing(None, lo, hi, None)) == Failure(OutOfRange)
  {
  }

  /** A non-negative minimum cannot be configured without a maximum, whatever
      its value; a negative one is out of range before the ordering checks. */
  lemma ResolveMinWithoutMax(lo: int)
    requires lo >= 0
    ensures Resolve(RawSizing(None, Some(lo), None, None)) == Failure(Relational)
  {
  }

  /** A zero maximum alone is an ordering error: the minimum defaults to 1. */
  lemma ResolveZeroMaxOnly()
    ensures Resolve(RawSizing(None, None, Some(0), None)) == Failure(Relational)
  {
  }

  /** An explicit minimum above the explicit maximum is an ordering error. */
  lemma ResolveMinAboveMax(lo: int, hi: int)
    requires 0 <= hi < lo
    ensures Resolve(RawSizing(None, Some(lo), Some(hi), None)) == Failure(Relational)
  {
  }

  /** `count` cannot be mixed with `minSize` or `maxSize`, whatever the values. */
  lemma ResolveCountExcludesBounds(raw: RawSizing)
    requires raw.count.Some? && (raw.minSize.Some? || raw.maxSize.Some?)
    ensures Resolve(raw) == Failure(Disjoint)
  {
  }

  /** The defensive check fires exactly for a zero `count` alone or for zero
      for both bounds, with no floor given. (A zero `maxSize` alone is an
      ordering error first, since the minimum defaults to 1.) */
  lemma ResolveInconsistentExactly(raw: RawSizing)
    ensures Resolve(raw) == Failure(Inconsistent) <==>
      raw.minInService.None? &&
      (raw == RawSizing(Some(0), None, None, None) || raw == RawSizing(None, Some(0), Some(0), None))
  {
  }
}

=== FILE: wrappers.dfy ===
/** Optional values and results, used for the fields that may be absent from a
    configuration document and for resolutions that may fail. */
module Wrappers {

  /** A value that may be absent; absence is a state of its own, never a sentinel. */
  datatype Option<+T> = None | Some(value: T) {

    /** The value when present, `default` otherwise. */
    function GetOr(default: T): T {
      match this
      case Some(v) => v
      case None => default
    }
  }

  /** Either a value or the error that prevented computing it. */
  datatype Result<+R, +E> = Success(value: R) | Failure(error: E)
}
